=== FILE: README.md ===
# Face-recognition attendance: a Dafny model

This project models the sequential core of a webcam attendance page, `facescan.py`.
A person registers a reference photo under a name. Later, a live frame is compared
against the stored photos by a face-verification library. A check-in or check-out
record is then appended to a JSON ledger. Four pieces are modelled, each as immutable
datatypes and pure functions:

- **Identity scan** (`recognize_face`), in `scan.dfy`. The reference store is a
  directory listing. Only its `.jpg` entries are compared, in listing order. The
  library is an oracle that answers `Verified`, `NotVerified` or `Error` (an
  exception). The result is the file stem of the first verified entry. Errors are
  skipped. A missing or empty directory gives no answer and no oracle call.
  `RecognizeFace` is the loop itself, and it also returns the files the oracle was
  asked about.
- **Registration naming** (`add_face`), in `registration.dfy`. Blank names are
  rejected before the camera is touched. Otherwise the image is stored as
  `name.strip() + ".jpg"`. The round trip back to the name goes through
  POSIX `os.path.splitext` (posixpath), and `strings.dfy` models that `splitext`,
  `strip` and `endswith` as Python defines them.
- **Attendance ledger** (`load_attendance_data`, `save_attendance_data`,
  `log_check`), in `ledger.dfy`. The ledger is a sequence of `(Name, Type, Time)`
  records. The file is `Absent`, `Malformed`, `Unreadable` or `Holds(records)`.
  The disk's behaviour on the next rewrite is an input.
- **Verification session** (`webcam_verification`), in `verification.dfy`. Each
  check type has a session `(frame, done, capturedAt)`. It handles four clicks:
  capture, verify, recapture and reset. The camera, the oracle, the disk and the
  clock arrive with the click.

A few behaviours of the code are easy to misread. The model follows the code as
written:

- Loading the ledger does not always succeed. Exceptions other than a JSON decode
  error or a missing file propagate (facescan.py:24). In the page, the handler at
  facescan.py:245 catches them, and the session is left unchanged.
- Recapture does not capture a new frame and does not clear the capture time
  (facescan.py:249-253). It only drops the frame and the done flag.
- The file on disk does not always equal the last successful write. The file is
  opened with mode `'w'`, which truncates it before writing. So a write that fails
  partway leaves a malformed file, and the next load returns the empty ledger.
- `recognize_face` short-circuits only when the directory has no entries at all
  (facescan.py:65). The page itself checks for `.jpg` entries (facescan.py:157).
  Both checks are modelled as written.
- After a check is done, the verify button is still offered. A second click logs
  the same person again (`Verification.RepeatedVerifyLogsAgain`).

## Model

| member | source | states |
|---|---|---|
| Strings.Strip | facescan.py:117 | `name.strip()` gives an infix of the name with only whitespace cut from either end. The infix has no whitespace at its ends. It is empty exactly when the name is blank. |
| Strings.StripIdempotent | facescan.py:140 | A trimmed name is already trimmed, so the name stored in the file is in normal form. |
| Strings.SkipSpaces | facescan.py:117 | The first non-whitespace position, with everything before it whitespace. This is the left cut of `strip()`. |
| Strings.SkipSpacesBack | facescan.py:117 | The end of the last non-whitespace character, with everything after it whitespace. This is the right cut of `strip()`. |
| Strings.Stem | facescan.py:87 | `os.path.splitext(file)[0]` is a prefix of the file name, and it is non-empty for a non-empty name. When it drops something, the dropped part is a dot followed by neither dots nor slashes. |
| Strings.StemOfName | facescan.py:87 | Adding an extension to a name and taking the stem gives the name back if and only if the name's last path component is not all dots. When it is all dots, the stem is the whole file name. |
| Strings.LastIndexOf | facescan.py:87 | The result is -1 or a position holding the character, and no later position holds it; this is the `rfind` inside `splitext`. |
| Scan.JpgFiles | facescan.py:71 | Only the listing entries ending in `.jpg` are compared: a file is kept if and only if it is in the listing and ends in `.jpg`. |
| Scan.JpgFilesConcat | facescan.py:71 | The filter keeps the listing order of the reference images. |
| Scan.FirstMatch | facescan.py:75-92 | The scan returns no file if and only if no file is verified. Otherwise it returns a verified file of the list, and that file is the first verified one. |
| Scan.Recognize | facescan.py:63-101 | A missing or empty directory gives None. The result is None if and only if no `.jpg` entry is verified. Otherwise it is the stem of the first verified `.jpg` entry, and it is never empty. |
| Scan.RecognizeFace | facescan.py:71-92 | The loop agrees with `Recognize`. The oracle is asked about a prefix of the `.jpg` entries, in listing order. That prefix is all of them when nothing matches, and it ends at the match otherwise: every earlier file was not verified or raised. When the directory is missing or empty, the oracle is asked nothing. |
| Scan.OnlyVerifiedMatters | facescan.py:77-92 | The result depends only on which files are verified. An exception on a file counts exactly like a negative verdict. |
| Scan.ErrorsAreSkipped | facescan.py:90-92 | The same fact for a whole directory: an oracle exception is swallowed and the scan continues. |
| Scan.EarlierMatchWins | facescan.py:86-88 | The match returned is the first verified file, at or before any file the oracle verifies, so a later verified file never wins. |
| Scan.RecognizedNamesArePlain | facescan.py:87 | A name recovered from a listing with no `/` in its entries contains no `/`. |
| Scan.ErrorThenMatch | facescan.py:90-92 | Take a listing whose first `.jpg` entry makes the oracle raise, then a non-image entry, then a verified `.jpg` entry. The scan returns the name of the last one. |
| Registration.AddFace | facescan.py:113-150 | A click with a blank name is rejected. A click with a non-blank name stores the frame if and only if the camera delivered one, and reports a camera failure otherwise. The stored file is `FileNameFor(name)`. The name box is cleared only after a successful store. |
| Registration.BlankNameNeverTouchesCamera | facescan.py:116-119 | For a blank name, the outcome is `Rejected` whatever the camera would have done, so the camera is never accessed. |
| Registration.SameFileIffSameName | facescan.py:140-141 | Two registrations are given the same file name, so the later silently replaces the earlier, if and only if their trimmed names are equal. |
| Registration.RegistrationRoundTrip | facescan.py:140 | For the code as written: the stem of the stored file equals the trimmed name if and only if the name's last path component is not all dots. |
| Registration.DotNameNotRecovered | facescan.py:140 | A name that is all dots once trimmed is accepted. Its file's stem is the whole file name, not the name. |
| Registration.SpacedDotIsDotOnly | facescan.py:117 | `" . "` is such a name: trimmed, it is a single dot. |
| Registration.SlashNameNeverRecognized | facescan.py:140 | A name containing `/` is accepted, but no scan of a plain directory listing can ever return it. |
| Registration.SlashNameExample | facescan.py:117 | `"a/b"` is such a name: it is unchanged by trimming and contains `/`. |
| Registration.AddFaceChecked | facescan.py:116-119 | The corrected name check. A name is rejected if and only if the scan could not give it back. On every other name it agrees with `AddFace`, and the stored file has no `/` and has the trimmed name as its stem. |
| Registration.RecoverableRoundTrip | facescan.py:140 | For a recoverable name, the stored file's stem is the trimmed name. |
| Registration.RegisterThenRecognize | facescan.py:140-141 | A name is registered with the corrected check, and the stored file is listed. If the oracle verifies that file and no other image, the scan returns the trimmed name. |
| Ledger.Load | facescan.py:15-25 | Loading raises if and only if the file is unreadable in a way other than missing or malformed; otherwise it returns the records the file holds, and none for a missing or malformed file. |
| Ledger.Save | facescan.py:27-36 | The save reports success if and only if the write went through, and then loading returns exactly the saved records. If the file cannot be opened, it is unchanged. If the write breaks partway, the file loads as empty. |
| Ledger.LogCheck | facescan.py:38-56 | An exception from the load propagates, and nothing is written. Otherwise the result is success if and only if the save succeeded. On success, the file holds the old records unchanged and in order, followed by exactly `(name, type, now)`. On failure, the file loads as before or as empty. |
| Ledger.AppendThenLoad | facescan.py:43-50 | Load, then append, then load gives the original sequence with the new record at its end. |
| Ledger.MissingOrMalformedLoadsEmpty | facescan.py:18-25 | A missing file and a JSON decode error both load as the empty ledger. |
| Ledger.FirstRecord | facescan.py:46-47 | Appending to a missing or empty ledger gives a file holding exactly that one record. |
| Ledger.ReplayKeepsOrder | facescan.py:46-47 | After successive successful checks, the ledger is the old records followed by the new ones in the order they were logged. |
| Verification.Identified | facescan.py:210-212 | Python's truth test `if name:` on the recognized name agrees with the scan result, because a recognized name is never empty. |
| Verification.Handle | facescan.py:171-263 | Capture: a frame from the camera sets `frame`, clears `done` and sets the capture time; a camera failure changes nothing. Verify: sets `done` if and only if the frame is recognized and the log succeeds, and the ledger then gains exactly that record; otherwise the session is unchanged. With no frame or no match the ledger file is untouched; with a match it is the file `log_check` leaves, unchanged when the load raises. Recapture drops the frame and `done` and keeps the capture time. Reset works only when done, and it restores the fresh session. Every click keeps the session valid. |
| Verification.Run | facescan.py:152-168 | With no `.jpg` reference, a run changes nothing. Otherwise the click is handled by `Handle` on the stored session of the clicked check type, or on the fresh session when it is used for the first time; the result is that session and ledger file. The other check type's session is untouched. Validity of all sessions is preserved. |
| Verification.RunAllKeepsValid | facescan.py:171-263 | Whatever the clicks, no session is ever done without a frame, and no frame is ever shown without a capture time. |
| Verification.NoFacesNoEffect | facescan.py:157-159 | With no reference image, no sequence of clicks has any effect. |
| Verification.RecaptureKeepsCaptureTime | facescan.py:249-253 | Capture and then recapture give `(None, false, Some(t))`, which is not the fresh session. |
| Verification.RepeatedVerifyLogsAgain | facescan.py:207-228 | Verifying a session that is already done appends one more record for the same person. |

## Findings

| source | as written | input that shows it | evidently intended | confidence | as-written member | corrected member |
|---|---|---|---|---|---|---|
| facescan.py:140 | a name made only of dots passes the blank check and is stored as `name + ".jpg"` | `" . "` is stored as `..jpg`, and `splitext("..jpg")[0]` is `"..jpg"`, so the person is checked in as `..jpg` | registered names come back unchanged from the scan | medium; not executed | Registration.DotNameNotRecovered | Registration.AddFaceChecked |
| facescan.py:140 | a name containing `/` is joined into the store path | for `"a/b"` a write to `faces_db/a/b.jpg` is attempted; that is never an entry of `faces_db` (and `faces_db/a/` is not created, so the write most likely fails while the page reports success), so no scan can return `"a/b"`; and `"./a"` is written to `faces_db/./a.jpg`, which is the file of `"a"` | registered names can be recognized and never overwrite another person's image | medium; not executed | Registration.SlashNameNeverRecognized | Registration.AddFaceChecked |

## Left out

- The host is assumed to be POSIX with a case-sensitive file system. On Windows,
  `ntpath.splitext` also splits at `\`, so a name such as `a\b` would not come back
  from the scan, and on a case-insensitive file system `Alice` and `alice` share a
  file. `SameFileIffSameName`, `AddFaceChecked` and `Recoverable` are stated for
  the POSIX, case-sensitive host only.
- SameFileIffSameName: is about file names, not files. Path resolution is not
  modelled, so names with `/` that differ after trimming (`./a` and `a`, `a//b` and
  `a/b`, absolute names) can still reach one file and overwrite each other. For
  `Recoverable` names, which have no `/`, file name and file coincide.
- Streamlit rendering is not modelled: messages, images, columns, balloons,
  spinners and `st.rerun`. Button clicks are explicit events. A click on a button
  the page does not show has no effect.
- OpenCV is not modelled. Opening, reading and releasing the camera is a `Camera`
  outcome value. `putText` overlays are display only. `cv2.imwrite` is not
  modelled: a `Stored` registration is what the page reports, and the page ignores
  imwrite's return value.
- DeepFace and VGG-Face are replaced by the `Oracle` function over the frame and the
  reference file name.
- The temporary file `temp_live.jpg` (facescan.py:68-69, 97-99) is left out. For a
  single page run it only passes the frame to the library, and it is deleted
  afterwards.
- Concurrency is left out: the model assumes that page runs never overlap. Streamlit
  runs each browser session in its own thread, and two races follow when sessions
  overlap. First, `temp_live.jpg` is one fixed path. Another session can overwrite
  it between this scan's write and its library calls, so the scan compares the
  other frame and may log the other person. Another session's `finally` can also
  delete the file mid-scan, so the remaining library calls raise and the face is
  reported as not recognized. Second, `log_check` reads the whole ledger and writes
  it back (facescan.py:43-50). Two overlapping calls can both load N records and
  both save N+1, losing one record while both report success. The promises of
  `Ledger.LogCheck`, `Ledger.ReplayKeepsOrder` and `Verification.Handle` that the
  ledger gains exactly the logged record hold only for non-overlapping runs.
- The outer `try`/`except` of `recognize_face` (facescan.py:94-95) is left out.
  Every exception the library raises is already caught per file.
- JSON and pandas encoding are left out. The ledger file is abstracted to its
  record sequence. Well-formed JSON of another shape, which pandas would carry
  through with extra columns, is not modelled beyond `Unreadable`.
- `datetime.now()` and `strftime` are parameters: `now` is the formatted log time,
  and `Instant` is the capture time.
- The reference store's contents are not tracked. The directory listing, in
  `os.listdir` order, is an input to the scan. Registration only determines the
  file written, so overwriting follows from `SameFileIffSameName`.
- The `capture_face` flag of `add_face` is left out. It is set and cleared within
  the same run on every path.
- Selecting the current check type, the attendance-log tab, the summary metrics,
  the download, the sidebar listing and the "Reset All Sessions" wipe
  (facescan.py:268-312, 336-382) are left out. They are presentation only.
- `get_webcam` (facescan.py:58-61) is left out. It is defined but never used.
- The session keys `check-in_verification` and `check-out_verification` are
  modelled as a map keyed by the check type. The keys are distinct, so the two
  sessions are independent.

=== FILE: ledger.dfy ===
/**
 The attendance ledger (`load_attendance_data`, `save_attendance_data`,
 `log_check`): an ordered sequence of records kept in one JSON file that is read
 whole and rewritten whole. The file and the disk's behaviour on a write are
 values; JSON and table encoding are abstracted to the record sequence.
 */
module Ledger {

  /** One attendance record: the `Name`, `Type` and `Time` columns. */
  datatype Record = Record(name: string, kind: string, time: string)

  /**
   The ledger file as `load_attendance_data` finds it. `Malformed` is content the
   JSON parser rejects. `Unreadable` is a file whose opening, decoding or conversion
   to a table raises anything other than a JSON decode error or a missing file
   (a permission error, a JSON scalar where an array is expected, ...).
   */
  datatype FileState = Absent | Malformed | Unreadable | Holds(records: seq<Record>)

  /** The result of a load: the records, or an exception that reaches the caller. */
  datatype LoadResult = Loaded(records: seq<Record>) | LoadRaised

  /** What the disk does to the next full rewrite of the file: it succeeds, the file
      cannot be opened for writing, or it fails after opening, which has already
      truncated the file. */
  datatype Disk = Writable | CannotOpen | BreaksMidWrite

  /** The result of a save: whether it reported success, and the file afterwards. */
  datatype Saved = Saved(ok: bool, file: FileState)

  /** What `log_check` did: reported success, reported failure, or let an exception
      from the load propagate. */
  datatype LogResult = Recorded | NotRecorded | Raised

  /** The result of `log_check` and the file afterwards. */
  datatype Logged = Logged(result: LogResult, file: FileState)

  /** `load_attendance_data`: a missing file and a JSON decode error both give the
      empty ledger; other exceptions propagate. */
  function Load(file: FileState): (r: LoadResult)
    ensures r.LoadRaised? <==> file.Unreadable?
    ensures r.Loaded? ==> r.records == if file.Holds? then file.records else []
  {
    match file
    case Absent => Loaded([])
    case Malformed => Loaded([])
    case Unreadable => LoadRaised
    case Holds(records) => Loaded(records)
  }

  /**
   `save_attendance_data`: a full rewrite of the file. It reports success exactly
   when the write went through, in which case loading gives back exactly the saved
   records. A file that could not be opened is left as it was; a write that broke
   after opening leaves a truncated file, which loads as the empty ledger.
   */
  function Save(file: FileState, records: seq<Record>, disk: Disk): (r: Saved)
    ensures r.ok <==> disk == Writable
    ensures r.ok ==> Load(r.file) == Loaded(records)
    ensures disk == CannotOpen ==> r.file == file
    ensures disk == BreaksMidWrite ==> Load(r.file) == Loaded([])
  {
    match disk
    case Writable => Saved(true, Holds(records))
    case CannotOpen => Saved(false, file)
    case BreaksMidWrite => Saved(false, Malformed)
  }

  /**
   `log_check`: load the ledger, append one record stamped `now`, save. When the load
   succeeds, the result reports success exactly when the save did, and on success the
   file holds the old records, unchanged and in order, followed by the new one. An
   exception from the load propagates and nothing is written.
   */
  function LogCheck(file: FileState, name: string, kind: string, now: string, disk: Disk): (r: Logged)
    ensures Load(file).LoadRaised? ==> r == Logged(Raised, file)
    ensures Load(file).Loaded? ==> (r.result == Recorded <==> disk == Writable) && r.result != Raised
    ensures r.result == Recorded ==>
      && Load(r.file).Loaded?
      && |Load(r.file).records| == |Load(file).records| + 1
      && Load(r.file).records[..|Load(file).records|] == Load(file).records
      && Load(r.file).records[|Load(file).records|] == Record(name, kind, now)
    ensures r.result == NotRecorded ==> Load(r.file) == Load(file) || Load(r.file) == Loaded([])
  {
    match Load(file)
    case LoadRaised => Logged(Raised, file)
    case Loaded(records) =>
      var entry := Record(name, kind, now);
      var saved := Save(file, records + [entry], disk);
      assert (records + [entry])[..|records|] == records;
      Logged(if saved.ok then Recorded else NotRecorded, saved.file)
  }

  /** Load, append, load: a successful `log_check` makes the next load return the
      previous ledger with exactly the new record at its end. */
  lemma AppendThenLoad(file: FileState, name: string, kind: string, now: string)
    requires Load(file).Loaded?
    ensures var r := LogCheck(file, name, kind, now, Writable);
      r.result == Recorded && Load(r.file) == Loaded(Load(file).records + [Record(name, kind, now)])
  {
  }

  /** A missing or malformed ledger file loads as the empty ledger. */
  lemma MissingOrMalformedLoadsEmpty(file: FileState)
    requires file.Absent? || file.Malformed?
    ensures Load(file) == Loaded([])
  {
  }

  /** Appending the first record to an empty ledger file gives a file holding that
      one record. */
  lemma FirstRecord(file: FileState, name: string, kind: string, now: string)
    requires file == Absent || file == Holds([])
    ensures LogCheck(file, name, kind, now, Writable) == Logged(Recorded, Holds([Record(name, kind, now)]))
  {
  }

  /** The file after one successful `log_check` per entry, in order. */
  function Replay(file: FileState, entries: seq<Record>): FileState
    decreases |entries|
  {
    if entries == [] then file
    else
      var e := entries[0];
      Replay(LogCheck(file, e.name, e.kind, e.time, Writable).file, entries[1..])
  }

  /** Insertion order is chronological order: after successful checks, the ledger is
      the old one followed by the new records in the order they were logged. */
  lemma {:induction false} ReplayKeepsOrder(file: FileState, entries: seq<Record>)
    requires Load(file).Loaded?
    ensures Load(Replay(file, entries)) == Loaded(Load(file).records + entries)
    decreases |entries|
  {
    if entries == [] {
      assert Load(file).records + entries == Load(file).records;
    } else {
      var e := entries[0];
      var next := LogCheck(file, e.name, e.kind, e.time, Writable).file;
      AppendThenLoad(file, e.name, e.kind, e.time);
      assert e == Record(e.name, e.kind, e.time);
      ReplayKeepsOrder(next, entries[1..]);
      assert Load(file).records + [e] + entries[1..] == Load(file).records + entries;
    }
  }
}

=== FILE: options.dfy ===
/** Optional values: the model's stand-in for Python's `None`. */
module Options {

  /** `None` is Python's `None`; `Some(v)` is a present value `v`. */
  datatype Option<+T> = None | Some(value: T)
}

=== FILE: registration.dfy ===
/**
 Registration of a new face (`add_face`): the name check and the file name under
 which the reference image is stored. A click of the capture button is an explicit
 argument, and the webcam is an outcome value.
 */
module Registration {
  import opened Strings
  import opened Options
  import opened Scan

  /** One attempt to take a picture: the device would not open, it opened but
      returned no frame, or it returned `image`. */
  datatype Camera = OpenFailed | ReadFailed | Captured(image: Image)

  /** What one run of the registration form did. `Rejected` means the name was
      blank, and the camera was never accessed. `Stored` means the page reports the image
      stored as `fileName`; whether the write succeeded is not checked. */
  datatype Outcome =
    | NoClick
    | Rejected
    | CameraFailed
    | Stored(fileName: string, image: Image)

  /** The outcome of the form, with the text left in its name box afterwards. */
  datatype Form = Form(outcome: Outcome, faceName: string)

  /** The name under which an image is stored: the trimmed name plus `.jpg`. */
  function FileNameFor(typed: string): (f: string)
    ensures EndsWith(f, ImageSuffix)
    ensures f[..|f| - |ImageSuffix|] == Strip(typed)
  {
    var f := Strip(typed) + ImageSuffix;
    assert f[|f| - |ImageSuffix|..] == ImageSuffix;
    f
  }

  /**
   One run of `add_face` with `typed` in the name box. A blank name is rejected
   before the camera is touched; otherwise a captured frame is stored under the
   trimmed name, and the box is cleared only on success.
   */
  function AddFace(typed: string, clicked: bool, camera: Camera): (r: Form)
    ensures r.outcome.Rejected? <==> clicked && AllSpace(typed)
    ensures r.outcome.CameraFailed? <==> clicked && !AllSpace(typed) && !camera.Captured?
    ensures r.outcome.Stored? <==> clicked && !AllSpace(typed) && camera.Captured?
    ensures r.outcome.Stored? ==> r.outcome == Stored(FileNameFor(typed), camera.image)
    ensures r.faceName == if r.outcome.Stored? then [] else typed
  {
    if !clicked then Form(NoClick, typed)
    else if Strip(typed) == [] then Form(Rejected, typed)
    else match camera
      case Captured(image) => Form(Stored(FileNameFor(typed), image), [])
      case _ => Form(CameraFailed, typed)
  }

  /** A blank name is rejected whatever the camera would have done: the outcome does
      not depend on the camera at all. */
  lemma BlankNameNeverTouchesCamera(typed: string, c1: Camera, c2: Camera)
    requires AllSpace(typed)
    ensures AddFace(typed, true, c1) == AddFace(typed, true, c2) == Form(Rejected, typed)
  {
  }

  /** Two registrations are given the same file name, so the later silently
      replaces the earlier, exactly when their trimmed names agree. Path resolution
      is not modelled: names with `/` such as `./a` and `a` differ here yet reach the
      same file. */
  lemma SameFileIffSameName(t1: string, t2: string)
    ensures FileNameFor(t1) == FileNameFor(t2) <==> Strip(t1) == Strip(t2)
  {
  }

  /**
   The name round trip of the code as written: the scan recovers the trimmed name
   from the stored file exactly when the name's final path component is not made of
   dots only.
   */
  lemma RegistrationRoundTrip(typed: string, camera: Camera)
    requires AddFace(typed, true, camera).outcome.Stored?
    ensures var f := AddFace(typed, true, camera).outcome.fileName;
      Stem(f) == Strip(typed) <==> !AllDots(Basename(Strip(typed)))
  {
    ImageSuffixIsExtension();
    StemOfName(Strip(typed), ImageSuffix);
  }

  /**
   A name that is made of dots only once trimmed (`"."`, `" .. "`) is accepted and
   stored under a file name that has no extension by the rules of `splitext`, so the
   scan reports the person under the whole file name (`..jpg`) instead of the name.
   */
  lemma DotNameNotRecovered(typed: string, img: Image)
    requires Strip(typed) != [] && AllDots(Strip(typed))
    ensures AddFace(typed, true, Captured(img)).outcome == Stored(Strip(typed) + ImageSuffix, img)
    ensures Stem(Strip(typed) + ImageSuffix) == Strip(typed) + ImageSuffix != Strip(typed)
  {
  }

  /** `" . "` is such a name: trimming it leaves a single dot. */
  lemma SpacedDotIsDotOnly()
    ensures Strip(" . ") == "." && AllDots(".")
  {
  }

  /**
   A name containing `/` is accepted and stored under a path that is never a plain
   listing entry; no scan of a directory listing can ever report that name.
   */
  lemma SlashNameNeverRecognized(typed: string, img: Image, frame: Image, dir: Directory, oracle: Oracle)
    requires '/' in Strip(typed)
    requires PlainEntries(dir)
    ensures AddFace(typed, true, Captured(img)).outcome == Stored(Strip(typed) + ImageSuffix, img)
    ensures Recognize(frame, dir, oracle) != Some(Strip(typed))
  {
    RecognizedNamesArePlain(frame, dir, oracle);
  }

  /** `"a/b"` is such a name: it has no surrounding whitespace. */
  lemma SlashNameExample()
    ensures Strip("a/b") == "a/b" && '/' in "a/b"
  {
  }

  /** A name the scan can give back unchanged: after trimming it has no `/` and is
      not made of dots only (which also rules out the blank name). */
  predicate Recoverable(typed: string) {
    '/' !in Strip(typed) && !AllDots(Strip(typed))
  }

  /**
   Registration with the name check extended to the names the scan cannot give back.
   It agrees with `AddFace` on every recoverable name, and on those the stored file's
   stem is exactly the trimmed name.
   */
  function AddFaceChecked(typed: string, clicked: bool, camera: Camera): (r: Form)
    ensures r.outcome.Rejected? <==> clicked && !Recoverable(typed)
    ensures Recoverable(typed) ==> r == AddFace(typed, clicked, camera)
    ensures r.outcome.Stored? ==>
      && Stem(r.outcome.fileName) == Strip(typed)
      && '/' !in r.outcome.fileName
  {
    if clicked && !Recoverable(typed) then Form(Rejected, typed)
    else if !clicked then AddFace(typed, clicked, camera)
    else
      RecoverableRoundTrip(typed);
      AddFace(typed, clicked, camera)
  }

  /** On a recoverable name the stored file name has no `/` and its stem is the
      trimmed name. */
  lemma RecoverableRoundTrip(typed: string)
    requires Recoverable(typed)
    ensures Stem(FileNameFor(typed)) == Strip(typed)
    ensures '/' !in FileNameFor(typed)
  {
    var n := Strip(typed);
    assert LastIndexOf(n, '/') == -1;
    assert Basename(n) == n;
    ImageSuffixIsExtension();
    StemOfName(n, ImageSuffix);
    assert '/' !in ImageSuffix;
  }

  /**
   Register, then identify: once a recoverable name is stored, a scan of any listing
   that contains the stored file, with an oracle that verifies that file and no other
   reference image, reports the trimmed name.
   */
  lemma RegisterThenRecognize(typed: string, img: Image, f: string, frame: Image, entries: seq<string>, oracle: Oracle)
    requires AddFaceChecked(typed, true, Captured(img)).outcome == Stored(f, img)
    requires f in entries
    requires forall e :: e in JpgFiles(entries) ==> (oracle(frame, e) == Verified <==> e == f)
    ensures Recognize(frame, Listing(entries), oracle) == Some(Strip(typed))
  {
    assert Stem(f) == Strip(typed);
    var files := JpgFiles(entries);
    assert EndsWith(f, ImageSuffix);
    assert f in files;
    var r := Recognize(frame, Listing(entries), oracle);
    assert r.Some? by {
      var k :| 0 <= k < |files| && files[k] == f;
      assert oracle(frame, files[k]) == Verified;
    }
    var g :| g in files && oracle(frame, g) == Verified && r.value == Stem(g);
    assert g == f;
  }
}

=== FILE: scan.dfy ===
/**
 Identification of a live frame against the reference store (`recognize_face`).
 The reference store is a directory whose `.jpg` files are the registered faces;
 the face-verification library is an oracle asked about one reference file at a
 time. The scan is linear, in listing order, and stops at the first file the
 oracle verifies.
 */
module Scan {
  import opened Options
  import opened Strings

  /** A captured camera frame. Its pixels are never inspected by the model; only
      the oracle looks at them. */
  type Image = seq<int>

  /** What one call of the face-verification library reports: the two faces are the
      same person, they are not, or the call raised an exception. */
  datatype Verdict = Verified | NotVerified | Error

  /** The face-verification library, given the live frame and the name of a
      reference file in the store. */
  type Oracle = (Image, string) -> Verdict

  /** The reference store as the file system shows it: absent, or a directory with
      its entries in listing order. */
  datatype Directory = Missing | Listing(entries: seq<string>)

  /** The extension every reference image carries. */
  const ImageSuffix: string := ".jpg"

  /** `.jpg` is an extension that `splitext` splits off. */
  lemma ImageSuffixIsExtension()
    ensures IsExtension(ImageSuffix)
  {
  }

  /** The entries that are reference images, in listing order. */
  function JpgFiles(entries: seq<string>): (files: seq<string>)
    ensures forall f :: f in files <==> f in entries && EndsWith(f, ImageSuffix)
    ensures |files| <= |entries|
  {
    if entries == [] then []
    else
      var rest := JpgFiles(entries[1..]);
      assert forall f :: f in entries <==> f == entries[0] || f in entries[1..];
      if EndsWith(entries[0], ImageSuffix) then [entries[0]] + rest else rest
  }

  /** Filtering distributes over concatenation: the relative listing order of the
      reference images is kept. */
  lemma {:induction false} JpgFilesConcat(a: seq<string>, b: seq<string>)
    ensures JpgFiles(a + b) == JpgFiles(a) + JpgFiles(b)
  {
    if a == [] {
      assert a + b == b;
    } else {
      assert (a + b)[1..] == a[1..] + b;
      JpgFilesConcat(a[1..], b);
    }
  }

  /** The reference images the scan walks through; none when the store is missing. */
  function Files(dir: Directory): seq<string> {
    if dir.Missing? then [] else JpgFiles(dir.entries)
  }

  /** Position `i` of `files` is the first one the oracle verifies for `frame`. */
  predicate IsFirstMatch(frame: Image, files: seq<string>, oracle: Oracle, i: int) {
    && 0 <= i < |files|
    && oracle(frame, files[i]) == Verified
    && forall j :: 0 <= j < i ==> oracle(frame, files[j]) != Verified
  }

  /**
   The first-match rule over a list of reference files: the first file the oracle
   verifies. Only a `Verified` verdict stops the scan: `NotVerified` and `Error` (an
   exception from the library) both move on to the next file.
   */
  function FirstMatch(frame: Image, files: seq<string>, oracle: Oracle): (r: Option<string>)
    ensures r.None? <==> forall i :: 0 <= i < |files| ==> oracle(frame, files[i]) != Verified
    ensures r.Some? ==> r.value in files && oracle(frame, r.value) == Verified
    ensures forall i :: IsFirstMatch(frame, files, oracle, i) ==> r == Some(files[i])
  {
    if files == [] then None
    else if oracle(frame, files[0]) == Verified then Some(files[0])
    else
      var r := FirstMatch(frame, files[1..], oracle);
      FirstMatchStep(frame, files, oracle);
      r
  }

  /** How the scan's facts about `files[1..]` carry over to `files` once the first
      file is not verified. */
  lemma FirstMatchStep(frame: Image, files: seq<string>, oracle: Oracle)
    requires files != [] && oracle(frame, files[0]) != Verified
    ensures forall i :: IsFirstMatch(frame, files, oracle, i) ==> IsFirstMatch(frame, files[1..], oracle, i - 1)
    ensures forall i :: 0 <= i < |files[1..]| ==> files[1..][i] == files[i + 1]
    ensures (forall i :: 0 <= i < |files| ==> oracle(frame, files[i]) != Verified)
        <==> (forall i :: 0 <= i < |files[1..]| ==> oracle(frame, files[1..][i]) != Verified)
  {
  }

  /**
   `recognize_face`: no answer, and no oracle call, when the store is missing or its
   listing is empty; otherwise the name (file stem) of the first `.jpg` entry the
   oracle verifies, or no answer when none is verified. The name is never empty, so
   Python's truth test on it agrees with `is not None`.
   */
  function Recognize(frame: Image, dir: Directory, oracle: Oracle): (r: Option<string>)
    ensures dir.Missing? || dir.entries == [] ==> r == None
    ensures r.None? <==> forall i :: 0 <= i < |Files(dir)| ==> oracle(frame, Files(dir)[i]) != Verified
    ensures r.Some? ==> exists f :: f in Files(dir) && oracle(frame, f) == Verified && r.value == Stem(f)
    ensures forall i :: IsFirstMatch(frame, Files(dir), oracle, i) ==> r == Some(Stem(Files(dir)[i]))
    ensures r.Some? ==> r.value != []
  {
    if dir.Missing? || |dir.entries| == 0 then
      assert Files(dir) == [];
      None
    else
      var files := JpgFiles(dir.entries);
      assert Files(dir) == files;
      var m := FirstMatch(frame, files, oracle);
      if m.Some? then
        assert m.value != [] by {
          assert EndsWith(m.value, ImageSuffix);
        }
        Some(Stem(m.value))
      else
        None
  }

  /**
   The loop of `recognize_face`, recording which reference files the oracle was
   asked about. The oracle is asked about a prefix of the `.jpg` entries, in listing
   order: all of them when nothing matches, and up to and including the match
   otherwise; never about anything when the store is missing or empty.
   */
  method RecognizeFace(frame: Image, dir: Directory, oracle: Oracle) returns (recognized: Option<string>, asked: seq<string>)
    ensures recognized == Recognize(frame, dir, oracle)
    ensures |asked| <= |Files(dir)| && asked == Files(dir)[..|asked|]
    ensures dir.Missing? || dir.entries == [] ==> asked == []
    ensures recognized.None? ==> asked == Files(dir)
    ensures recognized.Some? ==>
      && asked != []
      && oracle(frame, asked[|asked| - 1]) == Verified
      && recognized.value == Stem(asked[|asked| - 1])
      && forall k :: 0 <= k < |asked| - 1 ==> oracle(frame, asked[k]) != Verified
  {
    if dir.Missing? || |dir.entries| == 0 {
      return None, [];
    }
    var files := JpgFiles(dir.entries);
    recognized := None;
    asked := [];
    var i := 0;
    while i < |files|
      invariant 0 <= i <= |files|
      invariant asked == files[..i]
      invariant forall k :: 0 <= k < i ==> oracle(frame, files[k]) != Verified
    {
      var file := files[i];
      asked := asked + [file];
      var verdict := oracle(frame, file);
      if verdict == Verified {
        recognized := Some(Stem(file));
        assert IsFirstMatch(frame, files, oracle, i);
        assert asked == files[..i + 1];
        return;
      }
      // NotVerified and Error alike: the library's exception is swallowed and the
      // scan goes on with the next file.
      i := i + 1;
    }
    assert asked == files;
  }

  /** The outcome depends on the oracle only through which files it verifies: an
      exception on a file counts exactly as a negative verdict. */
  lemma {:induction false} OnlyVerifiedMatters(frame: Image, files: seq<string>, o1: Oracle, o2: Oracle)
    requires forall f :: o1(frame, f) == Verified <==> o2(frame, f) == Verified
    ensures FirstMatch(frame, files, o1) == FirstMatch(frame, files, o2)
  {
    if files != [] && o1(frame, files[0]) != Verified {
      OnlyVerifiedMatters(frame, files[1..], o1, o2);
    }
  }

  /** `OnlyVerifiedMatters` lifted to the whole scan over a directory. */
  lemma ErrorsAreSkipped(frame: Image, dir: Directory, o1: Oracle, o2: Oracle)
    requires forall f :: o1(frame, f) == Verified <==> o2(frame, f) == Verified
    ensures Recognize(frame, dir, o1) == Recognize(frame, dir, o2)
  {
    if dir.Listing? && dir.entries != [] {
      OnlyVerifiedMatters(frame, JpgFiles(dir.entries), o1, o2);
    }
  }

  /** Tie-break: the match returned is the first verified file, which sits at or
      before any file the oracle verifies, so a later verified file never wins. */
  lemma {:induction false} EarlierMatchWins(frame: Image, files: seq<string>, oracle: Oracle, a: nat)
    requires a < |files| && oracle(frame, files[a]) == Verified
    ensures exists i :: 0 <= i <= a && IsFirstMatch(frame, files, oracle, i) && FirstMatch(frame, files, oracle) == Some(files[i])
  {
    if oracle(frame, files[0]) == Verified {
      assert IsFirstMatch(frame, files, oracle, 0);
    } else {
      EarlierMatchWins(frame, files[1..], oracle, a - 1);
      var i :| 0 <= i <= a - 1 && IsFirstMatch(frame, files[1..], oracle, i) && FirstMatch(frame, files[1..], oracle) == Some(files[1..][i]);
      assert IsFirstMatch(frame, files, oracle, i + 1);
    }
  }

  /** A listing entry never contains the path separator. */
  predicate PlainEntries(dir: Directory) {
    dir.Listing? ==> forall k :: 0 <= k < |dir.entries| ==> '/' !in dir.entries[k]
  }

  /** A name the scan recovers from a plain directory listing contains no `/`. */
  lemma RecognizedNamesArePlain(frame: Image, dir: Directory, oracle: Oracle)
    requires PlainEntries(dir)
    ensures Recognize(frame, dir, oracle).Some? ==> '/' !in Recognize(frame, dir, oracle).value
  {
  }

  /** The stem of a reference image's file name is the name it was stored under,
      when that name is a plain one. */
  lemma StemOfPlainName(n: string)
    requires '/' !in n && !AllDots(n)
    ensures Stem(n + ImageSuffix) == n
  {
    assert LastIndexOf(n, '/') == -1;
    assert Basename(n) == n;
    ImageSuffixIsExtension();
    StemOfName(n, ImageSuffix);
  }

  /** If the oracle raises on the first reference image and verifies the second, the
      second one's name is returned: a failed comparison is not fatal, and entries
      that are not `.jpg` files are never compared. */
  lemma ErrorThenMatch(frame: Image, oracle: Oracle, first: string, other: string, second: string)
    requires '/' !in second && !AllDots(second)
    requires !EndsWith(other, ImageSuffix)
    requires oracle(frame, first + ImageSuffix) == Error
    requires oracle(frame, second + ImageSuffix) == Verified
    ensures Recognize(frame, Listing([first + ImageSuffix, other, second + ImageSuffix]), oracle) == Some(second)
  {
    var a, b := first + ImageSuffix, second + ImageSuffix;
    var entries := [a, other, b];
    assert EndsWith(a, ImageSuffix) && EndsWith(b, ImageSuffix);
    assert entries[1..] == [other, b] && entries[1..][1..] == [b] && [b][1..] == [];
    assert JpgFiles(entries) == [a, b];
    assert IsFirstMatch(frame, [a, b], oracle, 1);
    StemOfPlainName(second);
  }
}

=== FILE: strings.dfy ===
/**
 The three pieces of Python's string library that the attendance page relies on:
 `str.strip()` (used on a registration name), `str.endswith` (used to pick the
 reference images out of a directory listing) and `os.path.splitext` (used to turn
 a reference image's file name back into a person's name).
 */
module Strings {

  /** Python's `str.isspace` for one character: the characters `str.strip()` with no
      argument removes. */
  predicate IsSpace(c: char) {
    var n := c as int;
    || (0x09 <= n <= 0x0D)
    || (0x1C <= n <= 0x20)
    || n == 0x85
    || n == 0xA0
    || n == 0x1680
    || (0x2000 <= n <= 0x200A)
    || n == 0x2028
    || n == 0x2029
    || n == 0x202F
    || n == 0x205F
    || n == 0x3000
  }

  /** Every character of `s` is whitespace (vacuously true of the empty string). */
  predicate AllSpace(s: string) {
    forall k :: 0 <= k < |s| ==> IsSpace(s[k])
  }

  /** The position of the first non-whitespace character of `s` at or after `from`,
      or `|s|` when there is none. */
  function SkipSpaces(s: string, from: nat): (i: nat)
    requires from <= |s|
    ensures from <= i <= |s|
    ensures forall k :: from <= k < i ==> IsSpace(s[k])
    ensures i < |s| ==> !IsSpace(s[i])
    decreases |s| - from
  {
    if from == |s| || !IsSpace(s[from]) then from else SkipSpaces(s, from + 1)
  }

  /** The position just after the last non-whitespace character of `s[lo..hi]`, or
      `lo` when there is none. */
  function SkipSpacesBack(s: string, lo: nat, hi: nat): (j: nat)
    requires lo <= hi <= |s|
    ensures lo <= j <= hi
    ensures forall k :: j <= k < hi ==> IsSpace(s[k])
    ensures j > lo ==> !IsSpace(s[j - 1])
    decreases hi
  {
    if hi == lo || !IsSpace(s[hi - 1]) then hi else SkipSpacesBack(s, lo, hi - 1)
  }

  /** Python's `str.strip()`: the infix of `s` left once whitespace is removed from
      both ends. It is empty exactly when `s` is blank. */
  function Strip(s: string): (r: string)
    ensures exists i, j :: 0 <= i <= j <= |s| && r == s[i..j] && AllSpace(s[..i]) && AllSpace(s[j..])
    ensures r != [] ==> !IsSpace(r[0]) && !IsSpace(r[|r| - 1])
    ensures r == [] <==> AllSpace(s)
  {
    var i := SkipSpaces(s, 0);
    var j := SkipSpacesBack(s, i, |s|);
    assert AllSpace(s[..i]) && AllSpace(s[j..]) by {
      assert forall k :: 0 <= k < i ==> s[..i][k] == s[k];
      assert forall k :: 0 <= k < |s| - j ==> s[j..][k] == s[j + k];
    }
    s[i..j]
  }

  /** Stripping is idempotent: a stripped name is already in normal form. */
  lemma StripIdempotent(s: string)
    ensures Strip(Strip(s)) == Strip(s)
  {
  }

  /** Python's `str.endswith(suffix)`. */
  predicate EndsWith(s: string, suffix: string) {
    |suffix| <= |s| && s[|s| - |suffix|..] == suffix
  }

  /** Python's `str.rfind(c)` for a single character: the last position of `c` in
      `s`, or -1 when `c` does not occur. */
  function LastIndexOf(s: string, c: char): (r: int)
    ensures -1 <= r < |s|
    ensures r >= 0 ==> s[r] == c
    ensures forall k :: r < k < |s| ==> s[k] != c
  {
    if s == [] then -1
    else if s[|s| - 1] == c then |s| - 1
    else LastIndexOf(s[..|s| - 1], c)
  }

  /** The last occurrence of `c` in `a + b` is the one in `b` if there is one, and
      otherwise the one in `a`. */
  lemma {:induction false} LastIndexOfConcat(a: string, b: string, c: char)
    ensures LastIndexOf(a + b, c)
         == if LastIndexOf(b, c) >= 0 then |a| + LastIndexOf(b, c) else LastIndexOf(a, c)
  {
    if b == [] {
      assert a + b == a;
    } else if b[|b| - 1] == c {
    } else {
      assert (a + b)[..|a + b| - 1] == a + b[..|b| - 1];
      LastIndexOfConcat(a, b[..|b| - 1], c);
    }
  }

  /** Every character of `s` is a dot (vacuously true of the empty string). */
  predicate AllDots(s: string) {
    forall k :: 0 <= k < |s| ==> s[k] == '.'
  }

  /** The final path component of `p`: everything after its last `/`. */
  function Basename(p: string): (r: string)
    ensures |r| <= |p| && r == p[|p| - |r|..]
    ensures '/' !in r
  {
    p[LastIndexOf(p, '/') + 1..]
  }

  /**
   The first half of POSIX `os.path.splitext(p)`. An extension is the part of the
   final path component that starts at its last dot, except that dots leading the
   component never start one (so `".jpg"` and `"..jpg"` have no extension).
   */
  function Stem(p: string): (r: string)
    ensures |r| <= |p| && r == p[..|r|]
    ensures p != [] ==> r != []
    ensures r != p ==> p[|r|] == '.' && '.' !in p[|r| + 1..] && '/' !in p[|r|..]
  {
    var sep := LastIndexOf(p, '/');
    var dot := LastIndexOf(p, '.');
    if dot > sep && !AllDots(p[sep + 1..dot]) then
      ExtensionFacts(p, sep, dot);
      p[..dot]
    else
      p
  }

  /** What `Stem` drops when it splits at `dot`: a dot followed by neither dots nor
      slashes, and the stem kept in front of it is not empty. */
  lemma ExtensionFacts(p: string, sep: int, dot: int)
    requires sep == LastIndexOf(p, '/') && dot == LastIndexOf(p, '.')
    requires dot > sep && !AllDots(p[sep + 1..dot])
    ensures dot > 0 && p[dot] == '.'
    ensures '.' !in p[dot + 1..] && '/' !in p[dot..]
  {
  }

  /** `ext` is an extension in the sense of `splitext`: a dot followed by neither
      dots nor slashes. */
  predicate IsExtension(ext: string) {
    ext != [] && ext[0] == '.' && '.' !in ext[1..] && '/' !in ext
  }

  /** A character that does not occur has no last position. */
  lemma LastIndexOfAbsent(s: string, c: char)
    requires c !in s
    ensures LastIndexOf(s, c) == -1
    decreases |s|
  {
  }

  /** In `n + ext` the last dot is the one opening `ext`, and the last `/` is the
      last one of `n`. */
  lemma ExtensionSplitPoints(n: string, ext: string)
    requires IsExtension(ext)
    ensures LastIndexOf(n + ext, '.') == |n|
    ensures LastIndexOf(n + ext, '/') == LastIndexOf(n, '/')
  {
    LastIndexOfAbsent(ext[1..], '.');
    LastIndexOfAbsent(ext, '/');
    assert ext == [ext[0]] + ext[1..];
    LastIndexOfConcat([ext[0]], ext[1..], '.');
    assert LastIndexOf([ext[0]], '.') == 0;
    LastIndexOfConcat(n, ext, '.');
    LastIndexOfConcat(n, ext, '/');
  }

  /**
   Appending an extension to a name and taking the stem gives the name back exactly
   when the name's final path component is not made of dots only; otherwise nothing
   is split off and the stem is the whole file name.
   */
  lemma StemOfName(n: string, ext: string)
    requires IsExtension(ext)
    ensures Stem(n + ext) == n <==> !AllDots(Basename(n))
    ensures AllDots(Basename(n)) ==> Stem(n + ext) == n + ext
  {
    var p := n + ext;
    ExtensionSplitPoints(n, ext);
    var sep := LastIndexOf(n, '/');
    assert p[sep + 1..|n|] == Basename(n);
    assert p[..|n|] == n;
  }
}

=== FILE: verification.dfy ===
/**
 The per-check-type verification session of `webcam_verification`: capture a frame,
 verify it against the reference store, log the attendance, recapture or start
 over. Each button click is an explicit event; the camera, the oracle, the disk and
 the clock come in with the event.
 */
module Verification {
  import opened Options
  import opened Scan
  import opened Registration
  import opened Ledger

  /** The clock reading kept as the capture time. */
  type Instant = nat

  /** The two kinds of attendance check; each has its own session. */
  datatype CheckType = CheckIn | CheckOut {

    /** The `Type` written to the ledger. */
    function Label(): string {
      match this
      case CheckIn => "Check-In"
      case CheckOut => "Check-Out"
    }
  }

  /** The session of one check type: the captured frame, whether the check has been
      verified and logged, and when the frame was captured. */
  datatype Session = Session(frame: Option<Image>, done: bool, capturedAt: Option<Instant>)

  /** The session a check type starts with, and the one "start new" restores. */
  const Fresh: Session := Session(None, false, None)

  /** One click on the session's buttons, with what the outside world answers. */
  datatype Event =
    | Capture(camera: Camera, at: Instant)
    | Verify(oracle: Oracle, now: string, disk: Disk)
    | Recapture
    | Reset

  /** A session and the ledger file after one event. */
  datatype Step = Step(session: Session, ledger: FileState)

  /** What every reachable session satisfies: a check is only marked done on a frame
      that is still shown, and a shown frame always has a capture time. A capture
      time without a frame is possible (see `Recapture`). */
  predicate Valid(s: Session) {
    && (s.done ==> s.frame.Some?)
    && (s.frame.Some? ==> s.capturedAt.Some?)
  }

  /** The name the verify button acts on, if any: a recognized name that is also
      non-empty, as Python's truth test on it demands. */
  function Identified(frame: Image, dir: Directory, oracle: Oracle): (r: Option<string>)
    ensures r == Recognize(frame, dir, oracle)
  {
    var name := Recognize(frame, dir, oracle);
    if name.Some? && name.value != [] then name else None
  }

  /**
   One click in the session of check type `kind`.

   - Capture: a frame read from the camera replaces the current one, clears `done`
     and records the capture time; a camera that does not open or read changes
     nothing.
   - Verify (offered only while a frame is shown): `done` is set exactly when the
     frame is recognized and `log_check` reports success; otherwise the session is
     as it was (a failed save may still have rewritten the file).
   - Recapture (offered only while a frame is shown): drops the frame and `done`,
     but keeps the capture time.
   - Reset (offered only once the check is done): back to the fresh session.
   */
  function Handle(kind: CheckType, dir: Directory, s: Session, ledger: FileState, e: Event): (r: Step)
    ensures Valid(s) ==> Valid(r.session)
    ensures r.ledger != ledger ==> e.Verify? && s.frame.Some?
    ensures e.Capture? ==>
      && r.ledger == ledger
      && (e.camera.Captured? ==> r.session == Session(Some(e.camera.image), false, Some(e.at)))
      && (!e.camera.Captured? ==> r.session == s)
    ensures e.Verify? ==> r.session.frame == s.frame && r.session.capturedAt == s.capturedAt
    ensures e.Verify? ==>
      var logged := s.frame.Some? && Recognize(s.frame.value, dir, e.oracle).Some? &&
        LogCheck(ledger, Recognize(s.frame.value, dir, e.oracle).value, kind.Label(), e.now, e.disk).result == Recorded;
      && (r.session.done <==> s.done || logged)
      && (!logged ==> r.session == s)
      && (logged ==> Load(r.ledger) == Loaded(Load(ledger).records +
            [Record(Recognize(s.frame.value, dir, e.oracle).value, kind.Label(), e.now)]))
    ensures e.Verify? && (s.frame.None? || Recognize(s.frame.value, dir, e.oracle).None?) ==> r.ledger == ledger
    ensures e.Verify? && s.frame.Some? && Recognize(s.frame.value, dir, e.oracle).Some? ==>
      r.ledger == LogCheck(ledger, Recognize(s.frame.value, dir, e.oracle).value, kind.Label(), e.now, e.disk).file
    ensures e.Recapture? ==>
      && r.ledger == ledger
      && r.session.capturedAt == s.capturedAt
      && (s.frame.Some? ==> r.session.frame.None? && !r.session.done)
      && (s.frame.None? ==> r.session == s)
    ensures e.Reset? ==>
      && r.ledger == ledger
      && r.session == (if s.frame.Some? && s.done then Fresh else s)
  {
    match e
    case Capture(camera, at) =>
      if camera.Captured? then Step(Session(Some(camera.image), false, Some(at)), ledger)
      else Step(s, ledger)
    case Verify(oracle, now, disk) =>
      if s.frame.None? then Step(s, ledger)
      else
        var name := Identified(s.frame.value, dir, oracle);
        if name.None? then Step(s, ledger)
        else
          var logged := LogCheck(ledger, name.value, kind.Label(), now, disk);
          if logged.result == Recorded then
            AppendThenLoad(ledger, name.value, kind.Label(), now);
            Step(s.(done := true), logged.file)
          else if logged.result == NotRecorded then Step(s, logged.file)
          else Step(s, ledger)
    case Recapture =>
      if s.frame.None? then Step(s, ledger)
      else Step(s.(frame := None, done := false), ledger)
    case Reset =>
      if s.frame.Some? && s.done then Step(Fresh, ledger) else Step(s, ledger)
  }

  /** The page state the sessions live in: the reference store, the ledger file and
      the sessions opened so far, one per check type. */
  datatype World = World(dir: Directory, ledger: FileState, sessions: map<CheckType, Session>)

  /** Every open session is valid. */
  predicate AllValid(w: World) {
    forall k :: k in w.sessions ==> Valid(w.sessions[k])
  }

  /**
   One run of `webcam_verification(kind)` with one click. With no reference image
   the page does nothing, not even open a session. Otherwise the session of `kind`
   is opened fresh on first use and handles the click; the other check type's
   session is never touched.
   */
  function Run(w: World, kind: CheckType, e: Event): (r: World)
    ensures |Files(w.dir)| == 0 ==> r == w
    ensures r.dir == w.dir
    ensures |Files(w.dir)| > 0 ==> kind in r.sessions
    ensures |Files(w.dir)| > 0 ==>
      var st := Handle(kind, w.dir, if kind in w.sessions then w.sessions[kind] else Fresh, w.ledger, e);
      r.sessions[kind] == st.session && r.ledger == st.ledger
    ensures forall k :: k != kind ==> (k in r.sessions <==> k in w.sessions)
    ensures forall k :: k != kind && k in w.sessions ==> r.sessions[k] == w.sessions[k]
    ensures AllValid(w) ==> AllValid(r)
  {
    if |Files(w.dir)| == 0 then w
    else
      var s := if kind in w.sessions then w.sessions[kind] else Fresh;
      var step := Handle(kind, w.dir, s, w.ledger, e);
      World(w.dir, step.ledger, w.sessions[kind := step.session])
  }

  /** The page after a series of clicks, each on the session of the given check type. */
  function RunAll(w: World, clicks: seq<(CheckType, Event)>): World
    decreases |clicks|
  {
    if clicks == [] then w else RunAll(Run(w, clicks[0].0, clicks[0].1), clicks[1..])
  }

  /** Whatever the clicks, every session stays valid: in particular no session is
      ever marked done without a frame. */
  lemma {:induction false} RunAllKeepsValid(w: World, clicks: seq<(CheckType, Event)>)
    requires AllValid(w)
    ensures AllValid(RunAll(w, clicks))
    decreases |clicks|
  {
    if clicks != [] {
      RunAllKeepsValid(Run(w, clicks[0].0, clicks[0].1), clicks[1..]);
    }
  }

  /** Verification clicks never change the reference store, so with no reference
      image no sequence of verification clicks has any effect. */
  lemma {:induction false} NoFacesNoEffect(w: World, clicks: seq<(CheckType, Event)>)
    requires |Files(w.dir)| == 0
    ensures RunAll(w, clicks) == w
    decreases |clicks|
  {
    if clicks != [] {
      NoFacesNoEffect(Run(w, clicks[0].0, clicks[0].1), clicks[1..]);
    }
  }

  /** Capture then recapture leaves a session with no frame but the old capture time:
      recapture does not return to the fresh session. */
  lemma RecaptureKeepsCaptureTime(kind: CheckType, dir: Directory, ledger: FileState, img: Image, at: Instant)
    ensures var captured := Handle(kind, dir, Fresh, ledger, Capture(Captured(img), at)).session;
      Handle(kind, dir, captured, ledger, Recapture).session == Session(None, false, Some(at)) != Fresh
  {
  }

  /** Nothing stops a second verification of a session that is already done: it logs
      the same person again, one more record at the end of the ledger. */
  lemma RepeatedVerifyLogsAgain(kind: CheckType, dir: Directory, s: Session, ledger: FileState, oracle: Oracle, now: string)
    requires s.frame.Some? && s.done
    requires Recognize(s.frame.value, dir, oracle).Some?
    requires Load(ledger).Loaded?
    ensures var r := Handle(kind, dir, s, ledger, Verify(oracle, now, Writable));
      && r.session == s
      && Load(r.ledger) == Loaded(Load(ledger).records + [Record(Recognize(s.frame.value, dir, oracle).value, kind.Label(), now)])
  {
  }
}
